=== FILE: README.md ===
# Trilingual weather-text evaluator, modelled in Dafny

This project models the scoring core of `scripts/evaluate.py`. The script scores
predicted weather descriptions in English, French and German against reference
texts. For each language it:

- collects the `<language>_text` and `<language>_logprob` fields from the loaded
  prediction records, and the `<language>_text` fields from the ground-truth
  records, skipping records that lack the field;
- computes a normalised exact-match accuracy and a perplexity, with accuracy
  0.0 when either text list is empty and infinite perplexity when there is no
  log-probability;
- reports the number of predicted texts.

It then averages accuracy and perplexity over the three languages, without
weights.

Modules:

- `Wrappers` (`wrappers.dfy`): `Option` and `Result`. `Result` stands for the
  exceptions the script raises.
- `Text` (`text.dfy`): `str.strip()` with Python's whitespace set,
  `str.lower()` on ASCII letters, and the `text.strip().lower()` comparison.
- `Metrics` (`metrics.dfy`): `calculate_perplexity` and `calculate_accuracy`.
- `Evaluation` (`evaluation.dfy`): field extraction, `evaluate_language`, and
  the language loop with its overall means from `main`.
- `Scenarios` (`scenarios.dfy`): worked examples, stated over the model.

Records are `map<string, string>`, one per prediction row or ground-truth
object. Two library calls become parameters:

- `float()` is `parse: string -> Option<real>`; `None` means `float()` raised
  `ValueError`.
- `math.exp` is `exp: real -> real`; lemmas that need `exp(0) = 1` ask for it.

A perplexity is `Finite(value)` or `Infinite`.

Two behaviours of the code that the model keeps:

- `calculate_accuracy([], [])` raises `ZeroDivisionError` at line 46. The model
  returns `Failure(DivisionByZero)`. `evaluate_language` never makes that call,
  because it scores only when both lists are non-empty.
- Texts are compared with `.lower()`, which is not Unicode case folding.

Prediction and reference texts are aligned by position after records without
the field have been skipped. The model keeps this behaviour. A ground-truth
object may lack a language's text, and then every later reference moves up one
place. `Scenarios.SkippedRecordsShiftAlignment` shows the first sample's
prediction being scored against the second sample's reference.

## Model

| member | source | states |
|---|---|---|
| Text.SkipSpaces | scripts/evaluate.py:45 | where `strip()` starts cutting: the first non-whitespace index at or after `i`, or the end of the text |
| Text.SkipSpacesSkipsSpaces | scripts/evaluate.py:45 | everything `strip()` cuts from the front is whitespace |
| Text.SkipSpacesTo | scripts/evaluate.py:45 | the front cut stops exactly at the first non-whitespace character |
| Text.BackSpaces | scripts/evaluate.py:45 | where `strip()` stops at the back: just after the last non-whitespace character, never before the front cut |
| Text.BackSpacesSkipsSpaces | scripts/evaluate.py:45 | everything `strip()` cuts from the back is whitespace |
| Text.BackSpacesTo | scripts/evaluate.py:45 | the back cut stops exactly after the last non-whitespace character |
| Text.Strip | scripts/evaluate.py:45 | `strip()` never lengthens a text, and its result neither starts nor ends with whitespace |
| Text.StripSurrounds | scripts/evaluate.py:45 | the input of `strip()` is whitespace, then the result, then whitespace |
| Text.StripUnique | scripts/evaluate.py:45 | `strip()` of whitespace + trimmed core + whitespace is exactly that core, so the two contracts above determine `strip()` |
| Text.StripTrimmed | scripts/evaluate.py:45 | `strip()` leaves a text with no surrounding whitespace unchanged |
| Text.StripIgnoresPadding | scripts/evaluate.py:45 | extra whitespace around a text does not change its `strip()` |
| Text.LowerChar | scripts/evaluate.py:45 | `lower()` of a character: never upper case; upper-case ASCII letters move to lower case; every other character, whitespace included, is unchanged |
| Text.Lower | scripts/evaluate.py:45 | `lower()` keeps the length and leaves no upper-case letter |
| Text.LowerAt | scripts/evaluate.py:45 | `lower()` changes each character in place, independently of the others |
| Text.LowerAppend | scripts/evaluate.py:45 | `lower()` of a concatenation is the concatenation of the `lower()`s |
| Text.LowerKeepsSpaces | scripts/evaluate.py:45 | `lower()` keeps all-whitespace texts all-whitespace and trimmed texts trimmed |
| Text.LowerIdempotent | scripts/evaluate.py:45 | `lower()` twice equals `lower()` once |
| Text.LowerStripCommute | scripts/evaluate.py:45 | `strip().lower()` equals `lower().strip()` |
| Text.Normalize | scripts/evaluate.py:45 | `x.strip().lower()` is never longer than `x`, neither starts nor ends with whitespace, and has no upper-case letter |
| Text.Matches | scripts/evaluate.py:45 | the `==` of the two normalised texts; its behaviour is stated by the two lemmas below |
| Text.NormalizeIdempotent | scripts/evaluate.py:45 | normalising an already normalised text changes nothing |
| Text.MatchesIgnoresPadding | scripts/evaluate.py:45 | a prediction matches a reference with or without surrounding whitespace |
| Text.MatchesIgnoresCase | scripts/evaluate.py:45 | texts equal after lower-casing match |
| Metrics.Sum | scripts/evaluate.py:37 | `sum(log_probs)`, front to back; SumRemove and SumPermutation state its order independence |
| Metrics.Mean | scripts/evaluate.py:37 | `sum(log_probs) / len(log_probs)` on a non-empty list |
| Metrics.CalculatePerplexity | scripts/evaluate.py:32-38 | infinite exactly for the empty list; otherwise `exp` of minus the arithmetic mean |
| Metrics.PerplexityOfConstant | scripts/evaluate.py:37-38 | a non-empty list whose values all equal `c` has perplexity `exp(-c)` |
| Metrics.PerplexityOfZeros | scripts/evaluate.py:37-38 | with `exp(0) = 1`, a non-empty all-zero list has perplexity 1 |
| Metrics.SumRemove | scripts/evaluate.py:37 | the sum is one term plus the sum of the others |
| Metrics.SumPermutation | scripts/evaluate.py:37 | two lists holding the same values have the same sum, in whatever order |
| Metrics.PerplexityOrderIndependent | scripts/evaluate.py:32-38 | reordering the log-probabilities leaves the perplexity unchanged |
| Metrics.CountSame | scripts/evaluate.py:45 | the `sum(1 for ... if ...)` count is at most the length |
| Metrics.CountIsPositions | scripts/evaluate.py:45 | the count equals the number of positions at which the pair agrees |
| Metrics.CountFull | scripts/evaluate.py:45 | the count equals the length exactly when every pair agrees |
| Metrics.CountNone | scripts/evaluate.py:45 | the count is zero exactly when no pair agrees |
| Metrics.CalculateAccuracy | scripts/evaluate.py:40-46 | length mismatch is an error exactly when the lengths differ; two empty lists are the division-by-zero error; lists of equal, non-zero length always get a score, and that score is the number of normalised matching positions divided by the length, in [0,1] |
| Metrics.FractionBounds | scripts/evaluate.py:46 | `count / length` is in [0,1]; it is 1 exactly when all positions match and 0 exactly when none do |
| Metrics.PerfectScoreIff | scripts/evaluate.py:45-46 | accuracy is 1.0 exactly when every prediction matches its reference |
| Metrics.ZeroScoreIff | scripts/evaluate.py:45-46 | accuracy is 0.0 exactly when no prediction matches its reference |
| Metrics.AccuracyOfIdentical | scripts/evaluate.py:40-46 | a non-empty list scored against itself gets 1.0 |
| Metrics.AccuracySymmetric | scripts/evaluate.py:40-46 | swapping predictions and references does not change the result or the error |
| Evaluation.TextKey | scripts/evaluate.py:50-53 | the f-string key `<language>_text` |
| Evaluation.LogProbKey | scripts/evaluate.py:51 | the f-string key `<language>_logprob` |
| Evaluation.Collect | scripts/evaluate.py:50-53 | the extracted list is never longer than the record list |
| Evaluation.CollectAppend | scripts/evaluate.py:50-53 | extraction from concatenated records concatenates the extractions, so record order is kept |
| Evaluation.CollectSingle | scripts/evaluate.py:50-53 | a record contributes its value when it has the field and nothing otherwise; with the lemma above, this determines the extraction |
| Evaluation.CollectLength | scripts/evaluate.py:50-53 | one value per record that carries the field |
| Evaluation.CollectAll | scripts/evaluate.py:50-53 | when every record carries the field, the i-th value is the i-th record's |
| Evaluation.ParseLogProbs | scripts/evaluate.py:51 | succeeds exactly when every cell parses, with the parsed values in order; otherwise the error names the first cell that does not parse |
| Evaluation.EvaluateLanguage | scripts/evaluate.py:48-63 | a successful per-language accuracy lies in [0,1] |
| Evaluation.EvaluateLanguageFails | scripts/evaluate.py:50-57 | fails exactly when a log-probability does not parse, or both text lists are non-empty with different lengths; a cell that does not parse is reported, as the parse error of the first such cell, before any length mismatch; with every cell parsed, two non-empty lists of different lengths give the length error, and that error needs both lists non-empty |
| Evaluation.EvaluateLanguageAccuracy | scripts/evaluate.py:56 | accuracy is 0.0 when either text list is empty, and otherwise the fraction of matching positions |
| Evaluation.EvaluateLanguageCounts | scripts/evaluate.py:57-62 | `num_samples` is the number of prediction records with `<language>_text`; perplexity is infinite exactly when no prediction record has `<language>_logprob` |
| Evaluation.EvaluateLanguagePerplexity | scripts/evaluate.py:51-57 | a finite perplexity is `exp` of minus the mean of the numbers the log-probability cells parse to, one per cell |
| Evaluation.Languages | scripts/evaluate.py:81 | the three languages in evaluation order |
| Evaluation.Evaluator | scripts/evaluate.py:86 | `evaluate_language(predictions, ground_truth, lang)` with the two data sets fixed |
| Evaluation.EvaluateAll | scripts/evaluate.py:84-87 | the loop succeeds exactly when every language does; the i-th result belongs to the i-th language; a failure is the first failing language's error |
| Evaluation.EvaluateLanguages | scripts/evaluate.py:84-87 | the loop over english, french and german succeeds exactly when each language does; the i-th result is the i-th language's evaluation; a failure is the error of the first language that fails |
| Evaluation.Accuracies | scripts/evaluate.py:96 | the generator `results[lang]['accuracy'] for lang in languages` |
| Evaluation.SumBounds | scripts/evaluate.py:96 | a sum of values in [0,1] lies between 0 and the count |
| Evaluation.SumOfThree | scripts/evaluate.py:96 | the sum over three languages is the sum of the three terms |
| Evaluation.MeanOfThree | scripts/evaluate.py:96 | the mean accuracy of three results is a third of their sum |
| Evaluation.MeanAccuracy | scripts/evaluate.py:96 | the mean of accuracies in [0,1] is in [0,1] |
| Evaluation.AddPerplexity | scripts/evaluate.py:97 | float `+` on perplexities, in which `inf` absorbs a finite value |
| Evaluation.SumPerplexities | scripts/evaluate.py:97 | the sum of perplexities is infinite exactly when one of them is |
| Evaluation.MeanPerplexity | scripts/evaluate.py:97 | the overall perplexity is infinite exactly when some language's is |
| Evaluation.SumPerplexitiesFinite | scripts/evaluate.py:97 | with no infinite term, the sum of perplexities is the real sum |
| Evaluation.MeanPerplexityFinite | scripts/evaluate.py:97 | with no infinite perplexity, the overall perplexity is the plain mean |
| Evaluation.MeanPerplexityOfThree | scripts/evaluate.py:97 | with three finite perplexities, the overall perplexity is a third of their sum |
| Evaluation.Summarize | scripts/evaluate.py:96-97 | overall accuracy is a third of the three accuracies and lies in [0,1] when they do; overall perplexity is infinite exactly when one language's is, and otherwise a third of the three perplexities |
| Evaluation.RunEvaluation | scripts/evaluate.py:81-102 | succeeds exactly when all three languages do; gives english, french, german results in that order, each equal to that language's evaluation; overall accuracy is their unweighted mean and lies in [0,1]; overall perplexity is infinite exactly when some language's is; a failure is the error of the first language that fails |
| Evaluation.RunEvaluationPerplexity | scripts/evaluate.py:97 | when every language's perplexity is finite, the overall perplexity of a run is the mean of the three |
| Scenarios.CaseAndPaddingIgnored | scripts/evaluate.py:45-46 | predictions equal to their references up to case and surrounding whitespace score 1.0 |
| Scenarios.PerfectPair | scripts/evaluate.py:45-46 | two matching pairs score 1.0 |
| Scenarios.RainSnowScoresOne | scripts/evaluate.py:45-46 | `["Rain", "Snow"]` against `["rain", " SNOW "]` scores 1.0 |
| Scenarios.MismatchedListsFail | scripts/evaluate.py:42-43 | one prediction against two references is the length error |
| Scenarios.ZeroLogProbsGiveOne | scripts/evaluate.py:34-38 | `[0.0, 0.0]` has perplexity 1 |
| Scenarios.CollectTwo | scripts/evaluate.py:50 | extraction from two records is the first record's contribution followed by the second's |
| Scenarios.ParseOne | scripts/evaluate.py:51 | a single cell that parses as `x` gives `[x]` |
| Scenarios.PerplexityOne | scripts/evaluate.py:37-38 | a single log-probability `x` gives perplexity `exp(-x)` |
| Scenarios.OneMatchingSample | scripts/evaluate.py:48-63 | one matching text with log-probability `x`: accuracy 1.0, perplexity `exp(-x)`, one sample |
| Scenarios.AbsentLanguage | scripts/evaluate.py:48-63 | a language with no fields gets accuracy 0.0, infinite perplexity and no samples |
| Scenarios.EvaluateAllThree | scripts/evaluate.py:84-87 | three successful languages are reported in loop order |
| Scenarios.RunOfThree | scripts/evaluate.py:81-102 | three per-language results give a report with those results in order, overall accuracy a third of their sum, and infinite overall perplexity exactly when one is infinite |
| Scenarios.EnglishOnlyFields | scripts/evaluate.py:50-53 | the fields each language extracts from one English-only record |
| Scenarios.OnlyEnglishResults | scripts/evaluate.py:48-63 | the three per-language results when only English has one matching sample |
| Scenarios.OneEnglishSample | scripts/evaluate.py:81-102 | the full report for one English-only sample: English (1.0, `exp(-x)`, 1); French and German (0.0, infinite, 0); overall (1/3, infinite) |
| Scenarios.SunnyEndToEnd | scripts/evaluate.py:81-102 | the row `Sunny` with log-probability `-0.5` against `sunny` gives English accuracy 1.0, perplexity `exp(0.5)`, one sample, and overall accuracy 1/3 |
| Scenarios.OneMatchingText | scripts/evaluate.py:48-63 | one matching text and no log-probability: accuracy 1.0, infinite perplexity, one sample |
| Scenarios.SecondRecordFields | scripts/evaluate.py:50-53 | from two records of which one has the field, only that record's value is extracted |
| Scenarios.SkippedRecordsShiftAlignment | scripts/evaluate.py:50-56 | when the first ground-truth object has no English text, the first sample's prediction is scored against the second sample's reference, because records without the field are skipped before alignment |
| Scenarios.MissingReferencesScoreZero | scripts/evaluate.py:56-62 | two German predictions and no German reference give accuracy 0.0, not a length error, with two samples |

## Left out

- `scripts/download_data.py` is not part of this model. It downloads and unpacks archives, which is I/O only.
- `load_predictions` and `load_ground_truth` (scripts/evaluate.py:18-30) read CSV and JSON files. The model starts from the loaded records, given as sequences of string maps.
- Prediction records read by `csv.DictReader` (scripts/evaluate.py:22-24) always carry every header column, and a short row gets `None` cells. So in the program a prediction record lacks `<language>_text` or `<language>_logprob` only when the whole column is missing from the file. The model accepts any record maps on both sides, a superset of what the loaders produce.
- Records here map strings to strings, so cells that are not strings are not modelled. A CSV row shorter than the header gives `None` cells, and JSON values need not be strings. A `None` log-probability makes `float()` raise `TypeError` at line 51. A text that is not a string raises at line 45 only when `calculate_accuracy` runs, that is when both text lists are non-empty and of equal length. Otherwise a non-string prediction text is only counted in `num_samples`, and a non-string reference text is not used at all.
- `float()` (scripts/evaluate.py:51) is the `parse` parameter. The model does not say which strings parse, or to what.
- Evaluation.ParseLogProbs: parses to finite reals only. `float()` also returns `inf`, `-inf` and `nan`, for cells such as `"1e999"`, `"-inf"` or `"nan"`. A `"-inf"` cell makes the mean at line 37 `-inf`, so `math.exp` returns `inf` without raising, and a non-empty list gets an infinite perplexity. A `"nan"` cell makes that language's perplexity `nan`, and the overall perplexity too. So Evaluation.EvaluateLanguageCounts ("infinite exactly when no prediction record has `<language>_logprob`") and the finite-perplexity lemmas hold for the program only when every cell parses to a finite number.
- `math.exp` (scripts/evaluate.py:38) is the `exp` parameter.
- Metrics.CalculatePerplexity: computes on unbounded reals and drops an error path. `math.exp` raises `OverflowError` when its result exceeds the largest float, which happens for arguments above about 709.78. So `log_probs = [-800.0]` aborts the run at line 38, while the model returns `Finite(exp(800.0))`. IEEE rounding is not modelled either.
- Evaluation.MeanPerplexity: treats an infinite term as absorbing, as IEEE addition does for `inf + x` with finite `x`, and adds finite terms as unbounded reals. In floats the sum of three finite perplexities can overflow to `inf`, for example three values near 8e307. So for floats, "infinite exactly when some language's is" does not hold, and the model does not cover that case. Rounding of the finite mean is not modelled either.
- Evaluation.Summarize: sums perplexities as Evaluation.MeanPerplexity does, so the float overflow of that sum is not modelled.
- Evaluation.RunEvaluation: reports the overall perplexity of Evaluation.Summarize, with the same gap.
- Metrics.CalculateAccuracy: computes `correct / len(predictions)` (line 46) as an exact real, not a rounded double. For example, one match in three gives exactly 1/3, where the program gives 0.3333333333333333. The [0,1] bounds and the "1.0 exactly when all match" and "0.0 exactly when none match" lemmas still hold for doubles, for lists shorter than 2^53. Rounding is monotone, `n/n` is exactly 1.0, and for `c < n` the quotient rounds to at most 1 - 2^-53. A quotient `c/n` with `c >= 1` is at least `1/n`, which is positive.
- Evaluation.MeanAccuracy: computes the sum and the division by 3 at line 96 as exact reals, so `Scenarios.OneEnglishSample` and `Scenarios.SunnyEndToEnd` state an overall accuracy of exactly 1/3 where the program gives the nearest double. The [0,1] bound still holds for doubles, since rounding is monotone and 3.0/3 is exactly 1.0.
- Text.LowerChar: lower-cases ASCII letters only. Python's `str.lower()` also maps non-ASCII upper-case letters and can change the length of a text.
- Text.Strip: treats each character as one code point from Python's `str.isspace` set. This matches `str.strip()` with no argument, but the Unicode tables are written out by hand rather than derived.
- The command-line interface, console output and JSON report writing (scripts/evaluate.py:65-78, 89-93, 104-116) are output only.

=== FILE: evaluation.dfy ===
/**
 The per-language evaluator and the aggregation over the fixed language set.
 Predictions and references arrive as already-loaded records: each record maps
 a field name such as `english_text` or `english_logprob` to its text.
 */
module Evaluation {
  import opened Wrappers
  import opened Text
  import opened Metrics

  /** One prediction row or one ground-truth object: field name to value. */
  type Record = map<string, string>

  /** The result reported for one language. */
  datatype LanguageResult = LanguageResult(accuracy: real, perplexity: Perplexity, numSamples: nat)

  /** The `overall` entry of the report. */
  datatype Overall = Overall(accuracy: real, perplexity: Perplexity)

  /** The report: `results[i]` belongs to the i-th evaluated language. */
  datatype Report = Report(results: seq<LanguageResult>, overall: Overall)

  /** The languages evaluated, in the order they are evaluated and reported. */
  const Languages: seq<string> := ["english", "french", "german"]

  function TextKey(language: string): string {
    language + "_text"
  }

  function LogProbKey(language: string): string {
    language + "_logprob"
  }

  /** The indices of the records that carry a field. */
  ghost function Holders(records: seq<Record>, key: string): set<int> {
    set i | 0 <= i < |records| && key in records[i]
  }

  /** The value of `key` in every record that has it, in record order; records
      without the key are skipped. */
  function Collect(records: seq<Record>, key: string): (vs: seq<string>)
    ensures |vs| <= |records|
  {
    if |records| == 0 then []
    else
      var n := |records| - 1;
      Collect(records[..n], key) + (if key in records[n] then [records[n][key]] else [])
  }

  /** Collection of a concatenation is the concatenation of the extractions:
      nothing is reordered across records. */
  lemma {:induction false} CollectAppend(a: seq<Record>, b: seq<Record>, key: string)
    ensures Collect(a + b, key) == Collect(a, key) + Collect(b, key)
  {
    if |b| > 0 {
      var n := |b| - 1;
      assert (a + b)[..|a + b| - 1] == a + b[..n];
      CollectAppend(a, b[..n], key);
    } else {
      assert a + b == a;
    }
  }

  /** A single record contributes its value for the key, if it has one. */
  lemma CollectSingle(r: Record, key: string)
    ensures Collect([r], key) == if key in r then [r[key]] else []
  {
    assert [r][..0] == [];
  }

  /** One value is extracted per record that carries the key. */
  lemma {:induction false} CollectLength(records: seq<Record>, key: string)
    ensures |Collect(records, key)| == |Holders(records, key)|
  {
    if |records| > 0 {
      var n := |records| - 1;
      CollectLength(records[..n], key);
      assert forall i :: 0 <= i < n ==> records[..n][i] == records[i];
      if key in records[n] {
        assert Holders(records, key) == Holders(records[..n], key) + {n};
      } else {
        assert Holders(records, key) == Holders(records[..n], key);
      }
    }
  }

  /** When every record carries the key, extraction keeps every value in
      place. */
  lemma {:induction false} CollectAll(records: seq<Record>, key: string)
    requires forall i :: 0 <= i < |records| ==> key in records[i]
    ensures |Collect(records, key)| == |records|
    ensures forall i :: 0 <= i < |records| ==> Collect(records, key)[i] == records[i][key]
  {
    if |records| > 0 {
      var n := |records| - 1;
      var front := records[..n];
      assert forall i :: 0 <= i < n ==> front[i] == records[i];
      CollectAll(front, key);
      assert Collect(records, key) == Collect(front, key) + [records[n][key]];
    }
  }

  /** The log-probability cells parsed as numbers, in order. `parse` is the
      string-to-number conversion; `None` means it raised. The first cell that
      does not parse is reported. */
  function ParseLogProbs(cells: seq<string>, parse: string -> Option<real>): (r: Result<seq<real>, Error>)
    ensures r.Success? <==> forall i :: 0 <= i < |cells| ==> parse(cells[i]).Some?
    ensures r.Success? ==> |r.value| == |cells|
    ensures r.Success? ==> forall i :: 0 <= i < |cells| ==> parse(cells[i]) == Some(r.value[i])
    ensures r.Failure? ==> exists i :: 0 <= i < |cells| && parse(cells[i]).None?
                                       && r.error == InvalidLogProb(cells[i])
                                       && forall j :: 0 <= j < i ==> parse(cells[j]).Some?
  {
    if |cells| == 0 then Success([])
    else
      match parse(cells[0])
      case None => Failure(InvalidLogProb(cells[0]))
      case Some(x) =>
        var rest := ParseLogProbs(cells[1..], parse);
        if rest.Failure? then
          var k :| 0 <= k < |cells[1..]| && parse(cells[1..][k]).None?
                   && rest.error == InvalidLogProb(cells[1..][k])
                   && forall j :: 0 <= j < k ==> parse(cells[1..][j]).Some?;
          assert parse(cells[k + 1]).None?;
          Failure(rest.error)
        else
          Success([x] + rest.value)
  }

  /** The metrics of one language: accuracy of the predicted texts against the
      reference texts, perplexity of the predicted log-probabilities and the
      number of predicted texts. */
  function EvaluateLanguage(preds: seq<Record>, truth: seq<Record>, language: string,
                            parse: string -> Option<real>, exp: real -> real): (r: Result<LanguageResult, Error>)
    ensures r.Success? ==> 0.0 <= r.value.accuracy <= 1.0
  {
    var textKey := TextKey(language);
    var predTexts := Collect(preds, textKey);
    var logProbs :- ParseLogProbs(Collect(preds, LogProbKey(language)), parse);
    var gtTexts := Collect(truth, textKey);
    var accuracy :- if |predTexts| > 0 && |gtTexts| > 0 then CalculateAccuracy(predTexts, gtTexts) else Success(0.0);
    var perplexity := if |logProbs| > 0 then CalculatePerplexity(logProbs, exp) else Infinite;
    Success(LanguageResult(accuracy, perplexity, |predTexts|))
  }

  /** Evaluating a language fails exactly when a log-probability does not
      parse, or when both text lists are non-empty and their lengths differ.
      A cell that does not parse is reported before any length mismatch, and
      the length error needs both lists non-empty. */
  lemma EvaluateLanguageFails(preds: seq<Record>, truth: seq<Record>, language: string,
                              parse: string -> Option<real>, exp: real -> real)
    ensures var predTexts := Collect(preds, TextKey(language));
            var gtTexts := Collect(truth, TextKey(language));
            var cells := Collect(preds, LogProbKey(language));
            var r := EvaluateLanguage(preds, truth, language, parse, exp);
            && (r.Failure? <==> (exists i :: 0 <= i < |cells| && parse(cells[i]).None?)
                                || (|predTexts| > 0 && |gtTexts| > 0 && |predTexts| != |gtTexts|))
            && (r == Failure(LengthMismatch) ==> |predTexts| > 0 && |gtTexts| > 0)
            && ((exists i :: 0 <= i < |cells| && parse(cells[i]).None?) ==>
                  r == Failure(ParseLogProbs(cells, parse).error))
            && (((forall i :: 0 <= i < |cells| ==> parse(cells[i]).Some?)
                 && |predTexts| > 0 && |gtTexts| > 0 && |predTexts| != |gtTexts|) ==>
                  r == Failure(LengthMismatch))
  {
  }

  /** With no predicted text or no reference text the accuracy is 0.0, and
      with both present it is the fraction of matching positions. */
  lemma EvaluateLanguageAccuracy(preds: seq<Record>, truth: seq<Record>, language: string,
                                 parse: string -> Option<real>, exp: real -> real)
    requires EvaluateLanguage(preds, truth, language, parse, exp).Success?
    ensures var predTexts := Collect(preds, TextKey(language));
            var gtTexts := Collect(truth, TextKey(language));
            var res := EvaluateLanguage(preds, truth, language, parse, exp).value;
            && ((|predTexts| == 0 || |gtTexts| == 0) ==> res.accuracy == 0.0)
            && (|predTexts| > 0 && |gtTexts| > 0 ==>
                  res.accuracy == |MatchingPositions(predTexts, gtTexts)| as real / |predTexts| as real)
  {
  }

  /** The sample count is the number of prediction records with a text for
      the language, and the perplexity is infinite exactly when no prediction
      record has a log-probability for it. */
  lemma EvaluateLanguageCounts(preds: seq<Record>, truth: seq<Record>, language: string,
                               parse: string -> Option<real>, exp: real -> real)
    requires EvaluateLanguage(preds, truth, language, parse, exp).Success?
    ensures var res := EvaluateLanguage(preds, truth, language, parse, exp).value;
            && res.numSamples == |Holders(preds, TextKey(language))|
            && (res.perplexity.Infinite? <==> |Holders(preds, LogProbKey(language))| == 0)
  {
    CollectLength(preds, TextKey(language));
    CollectLength(preds, LogProbKey(language));
  }

  /** A finite perplexity is `exp` of minus the mean of the numbers the
      log-probability cells parse to, one per cell, in record order. */
  lemma EvaluateLanguagePerplexity(preds: seq<Record>, truth: seq<Record>, language: string,
                                   parse: string -> Option<real>, exp: real -> real)
    requires EvaluateLanguage(preds, truth, language, parse, exp).Success?
    ensures var cells := Collect(preds, LogProbKey(language));
            var res := EvaluateLanguage(preds, truth, language, parse, exp).value;
            res.perplexity.Finite? ==>
              exists lps: seq<real> ::
                && |lps| == |cells| > 0
                && (forall i :: 0 <= i < |cells| ==> parse(cells[i]) == Some(lps[i]))
                && res.perplexity.value == exp(-Mean(lps))
  {
    var cells := Collect(preds, LogProbKey(language));
    var lps := ParseLogProbs(cells, parse).value;
    assert |lps| == |cells|;
  }

  /** Evaluates the languages in order with `evaluate`, stopping at the first
      that fails. */
  function EvaluateAll(languages: seq<string>, evaluate: string -> Result<LanguageResult, Error>)
    : (r: Result<seq<LanguageResult>, Error>)
    ensures r.Success? <==> forall i :: 0 <= i < |languages| ==> evaluate(languages[i]).Success?
    ensures r.Success? ==> |r.value| == |languages|
    ensures r.Success? ==> forall i :: 0 <= i < |languages| ==> evaluate(languages[i]) == Success(r.value[i])
    ensures r.Failure? ==>
              exists i :: 0 <= i < |languages| && evaluate(languages[i]) == Failure(r.error) &&
                forall j :: 0 <= j < i ==> evaluate(languages[j]).Success?
  {
    if |languages| == 0 then Success([])
    else
      var first := evaluate(languages[0]);
      if first.Failure? then Failure(first.error)
      else
        var rest := EvaluateAll(languages[1..], evaluate);
        if rest.Failure? then
          var k :| 0 <= k < |languages[1..]| && evaluate(languages[1..][k]) == Failure(rest.error) &&
                   forall j :: 0 <= j < k ==> evaluate(languages[1..][j]).Success?;
          assert evaluate(languages[k + 1]) == Failure(rest.error);
          Failure(rest.error)
        else
          Success([first.value] + rest.value)
  }

  /** `evaluate_language` with the two data sets fixed, as the loop over the
      languages calls it. */
  function Evaluator(preds: seq<Record>, truth: seq<Record>, parse: string -> Option<real>, exp: real -> real)
    : string -> Result<LanguageResult, Error>
  {
    language => EvaluateLanguage(preds, truth, language, parse, exp)
  }

  /** The per-language accuracies, in language order. */
  function Accuracies(results: seq<LanguageResult>): seq<real> {
    seq(|results|, i requires 0 <= i < |results| => results[i].accuracy)
  }

  lemma {:induction false} SumBounds(xs: seq<real>)
    requires forall i :: 0 <= i < |xs| ==> 0.0 <= xs[i] <= 1.0
    ensures 0.0 <= Sum(xs) <= |xs| as real
  {
    if |xs| > 0 {
      SumBounds(xs[1..]);
    }
  }

  lemma SumOfThree(xs: seq<real>)
    requires |xs| == 3
    ensures Sum(xs) == xs[0] + xs[1] + xs[2]
  {
    assert Sum(xs[2..]) == xs[2] + Sum(xs[3..]);
  }

  lemma MeanOfThree(results: seq<LanguageResult>)
    requires |results| == 3
    ensures MeanAccuracy(results) == (results[0].accuracy + results[1].accuracy + results[2].accuracy) / 3.0
  {
    SumOfThree(Accuracies(results));
  }

  /** The unweighted mean of the per-language accuracies; it is a fraction
      whenever each of them is. */
  function MeanAccuracy(results: seq<LanguageResult>): (m: real)
    requires |results| > 0
    ensures (forall i :: 0 <= i < |results| ==> 0.0 <= results[i].accuracy <= 1.0) ==> 0.0 <= m <= 1.0
  {
    var accs := Accuracies(results);
    assert forall i :: 0 <= i < |accs| ==> accs[i] == results[i].accuracy;
    assert (forall i :: 0 <= i < |accs| ==> 0.0 <= accs[i] <= 1.0) ==> 0.0 <= Sum(accs) <= |accs| as real by {
      if forall i :: 0 <= i < |accs| ==> 0.0 <= accs[i] <= 1.0 {
        SumBounds(accs);
      }
    }
    Mean(accs)
  }

  /** Floating-point addition of two perplexities: infinity absorbs any
      finite value. */
  function AddPerplexity(a: Perplexity, b: Perplexity): Perplexity {
    if a.Infinite? || b.Infinite? then Infinite else Finite(a.value + b.value)
  }

  /** `sum(...)` of the perplexities, which is infinite as soon as one of them
      is and otherwise the real sum. */
  function SumPerplexities(ps: seq<Perplexity>): (s: Perplexity)
    ensures s.Infinite? <==> exists i :: 0 <= i < |ps| && ps[i].Infinite?
  {
    if |ps| == 0 then Finite(0.0) else AddPerplexity(ps[0], SumPerplexities(ps[1..]))
  }

  /** The perplexity entry of `overall`: infinite when any language's
      perplexity is, otherwise the unweighted mean. */
  function MeanPerplexity(results: seq<LanguageResult>): (m: Perplexity)
    requires |results| > 0
    ensures m.Infinite? <==> exists i :: 0 <= i < |results| && results[i].perplexity.Infinite?
  {
    var ps := seq(|results|, i requires 0 <= i < |results| => results[i].perplexity);
    var s := SumPerplexities(ps);
    assert forall i :: 0 <= i < |results| ==> ps[i] == results[i].perplexity;
    if s.Infinite? then Infinite else Finite(s.value / |results| as real)
  }

  /** When no perplexity is infinite, the overall perplexity is the plain
      mean of the per-language values. */
  lemma {:induction false} MeanPerplexityFinite(results: seq<LanguageResult>)
    requires |results| > 0
    requires forall i :: 0 <= i < |results| ==> results[i].perplexity.Finite?
    ensures MeanPerplexity(results)
            == Finite(Mean(seq(|results|, i requires 0 <= i < |results| => results[i].perplexity.value)))
  {
    var ps := seq(|results|, i requires 0 <= i < |results| => results[i].perplexity);
    var vs := seq(|results|, i requires 0 <= i < |results| => results[i].perplexity.value);
    SumPerplexitiesFinite(ps, vs);
  }

  lemma {:induction false} SumPerplexitiesFinite(ps: seq<Perplexity>, vs: seq<real>)
    requires |ps| == |vs|
    requires forall i :: 0 <= i < |ps| ==> ps[i] == Finite(vs[i])
    ensures SumPerplexities(ps) == Finite(Sum(vs))
  {
    if |ps| > 0 {
      SumPerplexitiesFinite(ps[1..], vs[1..]);
    }
  }

  /** With three finite perplexities, the overall perplexity is a third of
      their sum. */
  lemma MeanPerplexityOfThree(results: seq<LanguageResult>)
    requires |results| == 3
    requires forall i :: 0 <= i < 3 ==> results[i].perplexity.Finite?
    ensures MeanPerplexity(results) == Finite((results[0].perplexity.value + results[1].perplexity.value
                                               + results[2].perplexity.value) / 3.0)
  {
    MeanPerplexityFinite(results);
    SumOfThree(seq(|results|, i requires 0 <= i < |results| => results[i].perplexity.value));
  }

  /** The loop over the languages: `evaluate_language` for each of them in
      order, the first failure ending the run. */
  function EvaluateLanguages(preds: seq<Record>, truth: seq<Record>,
                             parse: string -> Option<real>, exp: real -> real): (r: Result<seq<LanguageResult>, Error>)
    ensures r.Success? <==> forall i :: 0 <= i < |Languages| ==> EvaluateLanguage(preds, truth, Languages[i], parse, exp).Success?
    ensures r.Success? ==> |r.value| == |Languages|
    ensures r.Success? ==> forall i :: 0 <= i < |Languages| ==>
              EvaluateLanguage(preds, truth, Languages[i], parse, exp) == Success(r.value[i])
    ensures r.Failure? ==>
              exists i :: 0 <= i < |Languages| && EvaluateLanguage(preds, truth, Languages[i], parse, exp) == Failure(r.error) &&
                forall j :: 0 <= j < i ==> EvaluateLanguage(preds, truth, Languages[j], parse, exp).Success?
  {
    EvaluateAll(Languages, Evaluator(preds, truth, parse, exp))
  }

  /** The `overall` entry for the three language results: the unweighted
      means of their accuracies and of their perplexities. */
  function Summarize(results: seq<LanguageResult>): (o: Overall)
    requires |results| == |Languages|
    ensures o.accuracy == (results[0].accuracy + results[1].accuracy + results[2].accuracy) / 3.0
    ensures (forall i :: 0 <= i < |results| ==> 0.0 <= results[i].accuracy <= 1.0) ==> 0.0 <= o.accuracy <= 1.0
    ensures o.perplexity.Infinite? <==> exists i :: 0 <= i < |results| && results[i].perplexity.Infinite?
    ensures (forall i :: 0 <= i < |results| ==> results[i].perplexity.Finite?) ==>
              o.perplexity == Finite((results[0].perplexity.value + results[1].perplexity.value
                                      + results[2].perplexity.value) / 3.0)
  {
    MeanOfThree(results);
    assert (forall i :: 0 <= i < |results| ==> results[i].perplexity.Finite?) ==>
             MeanPerplexity(results) == Finite((results[0].perplexity.value + results[1].perplexity.value
                                                + results[2].perplexity.value) / 3.0) by {
      if forall i :: 0 <= i < |results| ==> results[i].perplexity.Finite? {
        MeanPerplexityOfThree(results);
      }
    }
    Overall(MeanAccuracy(results), MeanPerplexity(results))
  }

  /** A whole evaluation run over the fixed language set: each language's
      result in order, then the unweighted means over the languages. */
  function RunEvaluation(preds: seq<Record>, truth: seq<Record>,
                         parse: string -> Option<real>, exp: real -> real): (r: Result<Report, Error>)
    ensures r.Success? <==> forall i :: 0 <= i < |Languages| ==> EvaluateLanguage(preds, truth, Languages[i], parse, exp).Success?
    ensures r.Success? ==> |r.value.results| == |Languages|
    ensures r.Success? ==> forall i :: 0 <= i < |Languages| ==>
              EvaluateLanguage(preds, truth, Languages[i], parse, exp) == Success(r.value.results[i])
    ensures r.Success? ==> (r.value.overall.accuracy
              == (r.value.results[0].accuracy + r.value.results[1].accuracy + r.value.results[2].accuracy) / 3.0)
    ensures r.Success? ==> 0.0 <= r.value.overall.accuracy <= 1.0
    ensures r.Success? ==> (r.value.overall.perplexity.Infinite?
              <==> exists i :: 0 <= i < |Languages| && r.value.results[i].perplexity.Infinite?)
    ensures r.Failure? ==>
              exists i :: 0 <= i < |Languages| && EvaluateLanguage(preds, truth, Languages[i], parse, exp) == Failure(r.error) &&
                forall j :: 0 <= j < i ==> EvaluateLanguage(preds, truth, Languages[j], parse, exp).Success?
  {
    var results :- EvaluateLanguages(preds, truth, parse, exp);
    Success(Report(results, Summarize(results)))
  }

  /** When every language has a finite perplexity, the overall perplexity of
      a run is the unweighted mean of the three. */
  lemma RunEvaluationPerplexity(preds: seq<Record>, truth: seq<Record>,
                                parse: string -> Option<real>, exp: real -> real)
    ensures var r := RunEvaluation(preds, truth, parse, exp);
            r.Success? && (forall i :: 0 <= i < |r.value.results| ==> r.value.results[i].perplexity.Finite?) ==>
              r.value.overall.perplexity == Finite((r.value.results[0].perplexity.value + r.value.results[1].perplexity.value
                                                    + r.value.results[2].perplexity.value) / 3.0)
  {
  }
}

=== FILE: metrics.dfy ===
/**
 The two scoring functions: perplexity from a list of log-probabilities and
 normalised exact-match accuracy of two aligned lists of texts.
 */
module Metrics {
  import opened Wrappers
  import opened Text

  /** The exceptions the scoring code raises. The two accuracy errors come
      from `calculate_accuracy`; `InvalidLogProb` is raised only while the
      log-probabilities of a language are parsed, and lives here so that the
      evaluation of a language can report either kind in one result type. */
  datatype Error =
    | LengthMismatch          // the two text lists differ in length
    | DivisionByZero          // accuracy of two empty lists
    | InvalidLogProb(text: string)  // a log-probability cell that is not a number

  /** A perplexity: a real number, or the infinity returned when there is
      no log-probability to average. */
  datatype Perplexity = Finite(value: real) | Infinite

  function Sum(xs: seq<real>): real {
    if |xs| == 0 then 0.0 else xs[0] + Sum(xs[1..])
  }

  /** Arithmetic mean, `sum(xs) / len(xs)`. */
  function Mean(xs: seq<real>): real
    requires |xs| > 0
  {
    Sum(xs) / |xs| as real
  }

  /** Perplexity of a list of log-probabilities: infinite for the empty list,
      otherwise `exp` of the negated mean. `exp` is the exponential function,
      passed in because it is computed by a library this model does not
      contain. */
  function CalculatePerplexity(logProbs: seq<real>, exp: real -> real): (r: Perplexity)
    ensures r.Infinite? <==> |logProbs| == 0
    ensures r.Finite? ==> r.value == exp(-Mean(logProbs))
  {
    if |logProbs| == 0 then Infinite else Finite(exp(-Mean(logProbs)))
  }

  lemma {:induction false} SumConstant(xs: seq<real>, c: real)
    requires forall i :: 0 <= i < |xs| ==> xs[i] == c
    ensures Sum(xs) == |xs| as real * c
  {
    if |xs| > 0 {
      SumConstant(xs[1..], c);
    }
  }

  /** Every log-probability equal to `c` gives perplexity `exp(-c)`. */
  lemma {:induction false} PerplexityOfConstant(logProbs: seq<real>, c: real, exp: real -> real)
    requires |logProbs| > 0
    requires forall i :: 0 <= i < |logProbs| ==> logProbs[i] == c
    ensures CalculatePerplexity(logProbs, exp) == Finite(exp(-c))
  {
    SumConstant(logProbs, c);
    assert Mean(logProbs) == c;
  }

  /** A non-empty list of zero log-probabilities has perplexity 1. */
  lemma {:induction false} PerplexityOfZeros(logProbs: seq<real>, exp: real -> real)
    requires exp(0.0) == 1.0
    requires |logProbs| > 0
    requires forall i :: 0 <= i < |logProbs| ==> logProbs[i] == 0.0
    ensures CalculatePerplexity(logProbs, exp) == Finite(1.0)
  {
    PerplexityOfConstant(logProbs, 0.0, exp);
  }

  lemma {:induction false} SumRemove(xs: seq<real>, i: int)
    requires 0 <= i < |xs|
    ensures Sum(xs) == xs[i] + Sum(xs[..i] + xs[i + 1..])
  {
    if i == 0 {
      assert xs[..i] + xs[i + 1..] == xs[1..];
    } else {
      SumRemove(xs[1..], i - 1);
      assert xs[..i] + xs[i + 1..] == [xs[0]] + (xs[1..][..i - 1] + xs[1..][i..]);
    }
  }

  /** The sum does not depend on the order of its terms. */
  lemma {:induction false} SumPermutation(a: seq<real>, b: seq<real>)
    requires multiset(a) == multiset(b)
    ensures Sum(a) == Sum(b)
    decreases |a|
  {
    if |a| == 0 {
      assert |multiset(b)| == 0;
    } else {
      var i := SumPermutationPivot(a, b);
      var rest := b[..i] + b[i + 1..];
      RemovePivot(a, b, i);
      SumPermutation(a[1..], rest);
      SumRemove(b, i);
    }
  }

  lemma SumPermutationPivot(a: seq<real>, b: seq<real>) returns (i: int)
    requires |a| > 0 && multiset(a) == multiset(b)
    ensures 0 <= i < |b| && b[i] == a[0]
  {
    assert a[0] in multiset(b);
    i :| 0 <= i < |b| && b[i] == a[0];
  }

  /** Taking the first element out of `a` and its copy out of `b` leaves two
      lists that still hold the same values. */
  lemma RemovePivot(a: seq<real>, b: seq<real>, i: int)
    requires |a| > 0 && multiset(a) == multiset(b)
    requires 0 <= i < |b| && b[i] == a[0]
    ensures multiset(a[1..]) == multiset(b[..i] + b[i + 1..])
  {
    var rest := b[..i] + b[i + 1..];
    assert multiset(a) == multiset{a[0]} + multiset(a[1..]) by {
      assert a == [a[0]] + a[1..];
    }
    assert multiset(b) == multiset{a[0]} + multiset(rest) by {
      TakeOut(b, i);
    }
    Cancel(a[0], multiset(a[1..]), multiset(rest));
  }

  lemma TakeOut(xs: seq<real>, i: int)
    requires 0 <= i < |xs|
    ensures multiset(xs) == multiset{xs[i]} + multiset(xs[..i] + xs[i + 1..])
  {
    assert xs == xs[..i] + [xs[i]] + xs[i + 1..];
  }

  lemma Cancel(v: real, x: multiset<real>, y: multiset<real>)
    requires multiset{v} + x == multiset{v} + y
    ensures x == y
  {
    assert forall w :: x[w] == (multiset{v} + x)[w] - multiset{v}[w];
    assert forall w :: y[w] == (multiset{v} + y)[w] - multiset{v}[w];
  }

  /** Perplexity depends only on which log-probabilities occur, not on their
      order. */
  lemma {:induction false} PerplexityOrderIndependent(a: seq<real>, b: seq<real>, exp: real -> real)
    requires multiset(a) == multiset(b)
    ensures CalculatePerplexity(a, exp) == CalculatePerplexity(b, exp)
  {
    assert |a| == |multiset(a)| == |multiset(b)| == |b|;
    SumPermutation(a, b);
  }

  /** The positions at which `same` holds between the two aligned lists. */
  ghost function Positions<T>(p: seq<T>, g: seq<T>, same: (T, T) -> bool): set<int>
    requires |p| == |g|
  {
    set i | 0 <= i < |p| && same(p[i], g[i])
  }

  /** The number of positions at which `same` holds, counted front to back. */
  function CountSame<T>(p: seq<T>, g: seq<T>, same: (T, T) -> bool): (c: nat)
    requires |p| == |g|
    ensures c <= |p|
  {
    if |p| == 0 then 0
    else
      var n := |p| - 1;
      CountSame(p[..n], g[..n], same) + (if same(p[n], g[n]) then 1 else 0)
  }

  /** The count is the number of positions at which `same` holds. */
  lemma {:induction false} CountIsPositions<T>(p: seq<T>, g: seq<T>, same: (T, T) -> bool)
    requires |p| == |g|
    ensures CountSame(p, g, same) == |Positions(p, g, same)|
  {
    if |p| > 0 {
      var n := |p| - 1;
      var before := Positions(p[..n], g[..n], same);
      CountIsPositions(p[..n], g[..n], same);
      if same(p[n], g[n]) {
        assert Positions(p, g, same) == before + {n};
      } else {
        assert Positions(p, g, same) == before;
      }
    }
  }

  /** `same` holds everywhere exactly when the count is the full length. */
  lemma {:induction false} CountFull<T>(p: seq<T>, g: seq<T>, same: (T, T) -> bool)
    requires |p| == |g|
    ensures CountSame(p, g, same) == |p| <==> forall i :: 0 <= i < |p| ==> same(p[i], g[i])
  {
    if |p| > 0 {
      var n := |p| - 1;
      CountFull(p[..n], g[..n], same);
      assert forall i :: 0 <= i < n ==> p[..n][i] == p[i] && g[..n][i] == g[i];
    }
  }

  /** `same` holds nowhere exactly when the count is zero. */
  lemma {:induction false} CountNone<T>(p: seq<T>, g: seq<T>, same: (T, T) -> bool)
    requires |p| == |g|
    ensures CountSame(p, g, same) == 0 <==> forall i :: 0 <= i < |p| ==> !same(p[i], g[i])
  {
    if |p| > 0 {
      var n := |p| - 1;
      CountNone(p[..n], g[..n], same);
      assert forall i :: 0 <= i < n ==> p[..n][i] == p[i] && g[..n][i] == g[i];
    }
  }

  /** The positions at which a prediction matches its reference. */
  ghost function MatchingPositions(p: seq<string>, g: seq<string>): set<int>
    requires |p| == |g|
  {
    Positions(p, g, Matches)
  }

  /** Exact-match accuracy: the fraction of positions whose normalised texts
      agree. Lists of different lengths are an error, and so are two empty
      lists, whose fraction divides by zero. */
  function CalculateAccuracy(p: seq<string>, g: seq<string>): (r: Result<real, Error>)
    ensures r == Failure(LengthMismatch) <==> |p| != |g|
    ensures r == Failure(DivisionByZero) <==> |p| == |g| == 0
    ensures r.Success? <==> |p| == |g| > 0
    ensures r.Success? ==> 0.0 <= r.value <= 1.0
    ensures r.Success? ==> r.value == |MatchingPositions(p, g)| as real / |p| as real
  {
    if |p| != |g| then Failure(LengthMismatch)
    else if |p| == 0 then Failure(DivisionByZero)
    else
      var c := CountSame(p, g, Matches);
      CountIsPositions(p, g, Matches);
      FractionBounds(c, |p|);
      Success(c as real / |p| as real)
  }

  lemma FractionBounds(c: nat, n: nat)
    requires 0 < n && c <= n
    ensures 0.0 <= c as real / n as real <= 1.0
    ensures c as real / n as real == 1.0 <==> c == n
    ensures c as real / n as real == 0.0 <==> c == 0
  {
  }

  /** A perfect score means every prediction matches its reference, and
      conversely. */
  lemma PerfectScoreIff(p: seq<string>, g: seq<string>)
    requires |p| == |g| > 0
    ensures CalculateAccuracy(p, g) == Success(1.0)
            <==> forall i :: 0 <= i < |p| ==> Matches(p[i], g[i])
  {
    CountIsPositions(p, g, Matches);
    CountFull(p, g, Matches);
    FractionBounds(CountSame(p, g, Matches), |p|);
  }

  /** A zero score means no prediction matches its reference, and
      conversely. */
  lemma ZeroScoreIff(p: seq<string>, g: seq<string>)
    requires |p| == |g| > 0
    ensures CalculateAccuracy(p, g) == Success(0.0)
            <==> forall i :: 0 <= i < |p| ==> !Matches(p[i], g[i])
  {
    CountIsPositions(p, g, Matches);
    CountNone(p, g, Matches);
    FractionBounds(CountSame(p, g, Matches), |p|);
  }

  /** Any non-empty list scored against itself gets full marks. */
  lemma AccuracyOfIdentical(p: seq<string>)
    requires |p| > 0
    ensures CalculateAccuracy(p, p) == Success(1.0)
  {
    PerfectScoreIff(p, p);
  }

  /** Swapping predictions and references does not change the score. */
  lemma AccuracySymmetric(p: seq<string>, g: seq<string>)
    ensures CalculateAccuracy(p, g) == CalculateAccuracy(g, p)
  {
    if |p| == |g| {
      assert MatchingPositions(p, g) == MatchingPositions(g, p);
    }
  }
}

=== FILE: scenarios.dfy ===
/**
 Worked examples of the scoring rules on concrete inputs.
 */
module Scenarios {
  import opened Wrappers
  import opened Text
  import opened Metrics
  import opened Evaluation

  /** Two predictions that agree with their references up to letter case,
      the second reference padded with whitespace on both sides, score 1.0. */
  lemma CaseAndPaddingIgnored(a: string, b: string, c: string, d: string, pad: string)
    requires Lower(a) == Lower(c) && Lower(b) == Lower(d) && AllSpace(pad)
    ensures CalculateAccuracy([a, b], [c, pad + d + pad]) == Success(1.0)
  {
    MatchesIgnoresCase(a, c);
    MatchesIgnoresPadding(pad, d, pad, b);
    MatchesIgnoresCase(d, b);
    PerfectPair(a, b, c, pad + d + pad);
  }

  /** Two matching pairs score 1.0. */
  lemma PerfectPair(a: string, b: string, c: string, d: string)
    requires Matches(a, c) && Matches(b, d)
    ensures CalculateAccuracy([a, b], [c, d]) == Success(1.0)
  {
    PerfectScoreIff([a, b], [c, d]);
  }

  /** `["Rain", "Snow"]` against `["rain", " SNOW "]` scores 1.0. */
  lemma RainSnowScoresOne()
    ensures CalculateAccuracy(["Rain", "Snow"], ["rain", " SNOW "]) == Success(1.0)
  {
    assert Lower("Rain") == Lower("rain") by {
      assert Lower("Rain")[0] == 'r';
    }
    assert Lower("SNOW") == Lower("Snow") by {
      assert Lower("SNOW")[1] == 'n' && Lower("Snow")[1] == 'n';
    }
    assert " SNOW " == " " + "SNOW" + " ";
    CaseAndPaddingIgnored("Rain", "Snow", "rain", "SNOW", " ");
  }

  /** Lists of different lengths are an error, not a score. */
  lemma MismatchedListsFail()
    ensures CalculateAccuracy(["A"], ["A", "B"]) == Failure(LengthMismatch)
  {
  }

  /** `[0.0, 0.0]` has perplexity 1. */
  lemma ZeroLogProbsGiveOne(exp: real -> real)
    requires exp(0.0) == 1.0
    ensures CalculatePerplexity([0.0, 0.0], exp) == Finite(1.0)
  {
    PerplexityOfZeros([0.0, 0.0], exp);
  }

  lemma CollectTwo(r1: Record, r2: Record, key: string)
    ensures Collect([r1, r2], key) == Collect([r1], key) + Collect([r2], key)
  {
    assert [r1, r2] == [r1] + [r2];
    CollectAppend([r1], [r2], key);
  }

  lemma ParseOne(cell: string, x: real, parse: string -> Option<real>)
    requires parse(cell) == Some(x)
    ensures ParseLogProbs([cell], parse) == Success([x])
  {
    var r := ParseLogProbs([cell], parse);
    assert r.Success?;
    assert parse([cell][0]) == Some(r.value[0]);
    assert r.value == [x];
  }

  lemma PerplexityOne(x: real, exp: real -> real)
    ensures CalculatePerplexity([x], exp) == Finite(exp(-x))
  {
    assert Sum([x]) == x + Sum([]);
  }

  /** A language with one matching prediction whose log-probability parses
      as `x` scores 1.0 with perplexity `exp(-x)` over one sample. */
  lemma OneMatchingSample(preds: seq<Record>, truth: seq<Record>, language: string,
                          text: string, reference: string, cell: string, x: real,
                          parse: string -> Option<real>, exp: real -> real)
    requires Collect(preds, TextKey(language)) == [text]
    requires Collect(preds, LogProbKey(language)) == [cell]
    requires Collect(truth, TextKey(language)) == [reference]
    requires Matches(text, reference) && parse(cell) == Some(x)
    ensures EvaluateLanguage(preds, truth, language, parse, exp)
            == Success(LanguageResult(1.0, Finite(exp(-x)), 1))
  {
    ParseOne(cell, x, parse);
    PerfectScoreIff([text], [reference]);
    PerplexityOne(x, exp);
  }

  /** A language no record has a field for scores 0.0 with infinite
      perplexity over no samples. */
  lemma AbsentLanguage(preds: seq<Record>, truth: seq<Record>, language: string,
                       parse: string -> Option<real>, exp: real -> real)
    requires Collect(preds, TextKey(language)) == []
    requires Collect(preds, LogProbKey(language)) == []
    requires Collect(truth, TextKey(language)) == []
    ensures EvaluateLanguage(preds, truth, language, parse, exp) == Success(LanguageResult(0.0, Infinite, 0))
  {
  }

  /** Three languages that evaluate to `a`, `b` and `c` are collected in
      that order. */
  lemma EvaluateAllThree(languages: seq<string>, evaluate: string -> Result<LanguageResult, Error>,
                         a: LanguageResult, b: LanguageResult, c: LanguageResult)
    requires |languages| == 3
    requires evaluate(languages[0]) == Success(a)
    requires evaluate(languages[1]) == Success(b)
    requires evaluate(languages[2]) == Success(c)
    ensures EvaluateAll(languages, evaluate) == Success([a, b, c])
  {
    var r := EvaluateAll(languages, evaluate);
    assert forall i :: 0 <= i < |languages| ==> evaluate(languages[i]).Success?;
    assert r.Success?;
    assert evaluate(languages[0]) == Success(r.value[0]);
    assert evaluate(languages[1]) == Success(r.value[1]);
    assert evaluate(languages[2]) == Success(r.value[2]);
    assert r.value == [a, b, c];
  }

  /** A run whose three languages evaluate to `a`, `b` and `c` reports them
      in that order with their mean accuracy. */
  lemma RunOfThree(preds: seq<Record>, truth: seq<Record>, parse: string -> Option<real>, exp: real -> real,
                   a: LanguageResult, b: LanguageResult, c: LanguageResult)
    requires EvaluateLanguage(preds, truth, "english", parse, exp) == Success(a)
    requires EvaluateLanguage(preds, truth, "french", parse, exp) == Success(b)
    requires EvaluateLanguage(preds, truth, "german", parse, exp) == Success(c)
    ensures var r := RunEvaluation(preds, truth, parse, exp);
            && r.Success?
            && r.value.results == [a, b, c]
            && r.value.overall.accuracy == (a.accuracy + b.accuracy + c.accuracy) / 3.0
            && (r.value.overall.perplexity.Infinite?
                <==> a.perplexity.Infinite? || b.perplexity.Infinite? || c.perplexity.Infinite?)
  {
    var f := Evaluator(preds, truth, parse, exp);
    assert f(Languages[0]) == Success(a) && f(Languages[1]) == Success(b) && f(Languages[2]) == Success(c);
    EvaluateAllThree(Languages, f, a, b, c);
    MeanOfThree([a, b, c]);
    var results := [a, b, c];
    assert (exists i :: 0 <= i < |results| && results[i].perplexity.Infinite?)
           <==> a.perplexity.Infinite? || b.perplexity.Infinite? || c.perplexity.Infinite?;
  }

  /** Every language's fields in one English-only record and its reference. */
  lemma EnglishOnlyFields(text: string, reference: string, cell: string)
    ensures var preds := [map["english_text" := text, "english_logprob" := cell]];
            var truth := [map["english_text" := reference]];
            && Collect(preds, TextKey("english")) == [text]
            && Collect(preds, LogProbKey("english")) == [cell]
            && Collect(truth, TextKey("english")) == [reference]
            && Collect(preds, TextKey("french")) == []
            && Collect(preds, LogProbKey("french")) == []
            && Collect(truth, TextKey("french")) == []
            && Collect(preds, TextKey("german")) == []
            && Collect(preds, LogProbKey("german")) == []
            && Collect(truth, TextKey("german")) == []
  {
    var row := map["english_text" := text, "english_logprob" := cell];
    var reference_row := map["english_text" := reference];
    assert TextKey("english") == "english_text" && LogProbKey("english") == "english_logprob";
    assert TextKey("french") == "french_text" && LogProbKey("french") == "french_logprob";
    assert TextKey("german") == "german_text" && LogProbKey("german") == "german_logprob";
    CollectSingle(row, "english_text");
    CollectSingle(row, "english_logprob");
    CollectSingle(reference_row, "english_text");
    CollectSingle(row, "french_text");
    CollectSingle(row, "french_logprob");
    CollectSingle(reference_row, "french_text");
    CollectSingle(row, "german_text");
    CollectSingle(row, "german_logprob");
    CollectSingle(reference_row, "german_text");
  }

  /** Records holding one matching English sample and nothing for the other
      languages: English scores 1.0 with perplexity `exp(-x)` over one
      sample, French and German get 0.0, infinity and no samples. */
  lemma OnlyEnglishResults(preds: seq<Record>, truth: seq<Record>, text: string, reference: string,
                           cell: string, x: real, parse: string -> Option<real>, exp: real -> real)
    requires Collect(preds, TextKey("english")) == [text]
    requires Collect(preds, LogProbKey("english")) == [cell]
    requires Collect(truth, TextKey("english")) == [reference]
    requires Collect(preds, TextKey("french")) == [] && Collect(preds, LogProbKey("french")) == []
    requires Collect(truth, TextKey("french")) == []
    requires Collect(preds, TextKey("german")) == [] && Collect(preds, LogProbKey("german")) == []
    requires Collect(truth, TextKey("german")) == []
    requires Matches(text, reference) && parse(cell) == Some(x)
    ensures EvaluateLanguage(preds, truth, "english", parse, exp) == Success(LanguageResult(1.0, Finite(exp(-x)), 1))
    ensures EvaluateLanguage(preds, truth, "french", parse, exp) == Success(LanguageResult(0.0, Infinite, 0))
    ensures EvaluateLanguage(preds, truth, "german", parse, exp) == Success(LanguageResult(0.0, Infinite, 0))
  {
    OneMatchingSample(preds, truth, "english", text, reference, cell, x, parse, exp);
    AbsentLanguage(preds, truth, "french", parse, exp);
    AbsentLanguage(preds, truth, "german", parse, exp);
  }

  /** One sample whose English prediction matches its reference and whose
      log-probability cell parses as `x`, with no other fields. */
  lemma OneEnglishSample(text: string, reference: string, cell: string, x: real,
                         parse: string -> Option<real>, exp: real -> real)
    requires Matches(text, reference) && parse(cell) == Some(x)
    ensures var preds := [map["english_text" := text, "english_logprob" := cell]];
            var truth := [map["english_text" := reference]];
            var r := RunEvaluation(preds, truth, parse, exp);
            && r.Success?
            && r.value.results == [LanguageResult(1.0, Finite(exp(-x)), 1),
                                   LanguageResult(0.0, Infinite, 0),
                                   LanguageResult(0.0, Infinite, 0)]
            && r.value.overall == Overall(1.0 / 3.0, Infinite)
  {
    var preds := [map["english_text" := text, "english_logprob" := cell]];
    var truth := [map["english_text" := reference]];
    EnglishOnlyFields(text, reference, cell);
    OnlyEnglishResults(preds, truth, text, reference, cell, x, parse, exp);
    RunOfThree(preds, truth, parse, exp, LanguageResult(1.0, Finite(exp(-x)), 1),
               LanguageResult(0.0, Infinite, 0), LanguageResult(0.0, Infinite, 0));
  }

  /** The prediction `Sunny` with log-probability `-0.5` against the
      reference `sunny`. */
  lemma SunnyEndToEnd(parse: string -> Option<real>, exp: real -> real)
    requires parse("-0.5") == Some(-0.5)
    ensures var preds := [map["english_text" := "Sunny", "english_logprob" := "-0.5"]];
            var truth := [map["english_text" := "sunny"]];
            var r := RunEvaluation(preds, truth, parse, exp);
            && r.Success?
            && r.value.results[0] == LanguageResult(1.0, Finite(exp(0.5)), 1)
            && r.value.overall.accuracy == 1.0 / 3.0
  {
    assert Lower("Sunny") == Lower("sunny") by {
      assert Lower("Sunny")[0] == 's';
    }
    MatchesIgnoresCase("Sunny", "sunny");
    OneEnglishSample("Sunny", "sunny", "-0.5", -0.5, parse, exp);
  }

  /** A language with one matching prediction and no log-probability scores
      1.0 with infinite perplexity over one sample. */
  lemma OneMatchingText(preds: seq<Record>, truth: seq<Record>, language: string,
                        text: string, reference: string, parse: string -> Option<real>, exp: real -> real)
    requires Collect(preds, TextKey(language)) == [text]
    requires Collect(preds, LogProbKey(language)) == []
    requires Collect(truth, TextKey(language)) == [reference]
    requires Matches(text, reference)
    ensures EvaluateLanguage(preds, truth, language, parse, exp) == Success(LanguageResult(1.0, Infinite, 1))
  {
    PerfectScoreIff([text], [reference]);
  }

  /** The values of `key` in two records of which only `second` has it. */
  lemma SecondRecordFields(first: Record, second: Record, key: string, value: string)
    requires key !in first && key in second && second[key] == value
    ensures Collect([first, second], key) == [value]
    ensures Collect([second, first], key) == [value]
  {
    CollectSingle(first, key);
    CollectSingle(second, key);
    CollectTwo(first, second, key);
    CollectTwo(second, first, key);
  }

  /** Records lacking the field are skipped before alignment, so a prediction
      can be scored against another sample's reference: here the first
      ground-truth object has no English text, and the only prediction, which
      belongs to the first sample, is compared with the second sample's
      reference. */
  lemma SkippedRecordsShiftAlignment(text: string, reference: string,
                                     parse: string -> Option<real>, exp: real -> real)
    requires Matches(text, reference)
    ensures var preds: seq<Record> := [map["english_text" := text]];
            var truth: seq<Record> := [map[], map["english_text" := reference]];
            EvaluateLanguage(preds, truth, "english", parse, exp) == Success(LanguageResult(1.0, Infinite, 1))
  {
    var empty: Record := map[];
    var row := map["english_text" := text];
    var reference_row := map["english_text" := reference];
    assert TextKey("english") == "english_text" && LogProbKey("english") == "english_logprob";
    CollectSingle(row, "english_text");
    CollectSingle(row, "english_logprob");
    SecondRecordFields(empty, reference_row, "english_text", reference);
    OneMatchingText([row], [empty, reference_row], "english", text, reference, parse, exp);
  }

  /** Predicted texts without any reference text score 0.0 instead of
      raising the length error. */
  lemma MissingReferencesScoreZero(a: string, b: string, parse: string -> Option<real>, exp: real -> real)
    ensures var preds: seq<Record> := [map["german_text" := a], map["german_text" := b]];
            EvaluateLanguage(preds, [], "german", parse, exp) == Success(LanguageResult(0.0, Infinite, 2))
  {
    var first, second := map["german_text" := a], map["german_text" := b];
    assert TextKey("german") == "german_text" && LogProbKey("german") == "german_logprob";
    CollectSingle(first, "german_text");
    CollectSingle(second, "german_text");
    CollectSingle(first, "german_logprob");
    CollectSingle(second, "german_logprob");
    CollectTwo(first, second, "german_text");
    CollectTwo(first, second, "german_logprob");
    assert Collect([first, second], "german_text") == [a, b];
  }
}

=== FILE: text.dfy ===
/**
 The text normalisation applied before two texts are compared: leading and
 trailing whitespace is stripped (Python's `str.strip()` with no argument) and
 the result is lower-cased (`str.lower()`, ASCII letters only in this model).
 */
module Text {

  /** The characters Python's `str.isspace` accepts, which are exactly the
      ones `str.strip()` removes when called without an argument. */
  const Whitespace: set<char> := {
    '\t', '\n', '\U{0B}', '\U{0C}', '\r', '\U{1C}', '\U{1D}', '\U{1E}', '\U{1F}', ' ',
    '\U{85}', '\U{A0}', '\U{1680}', '\U{2000}', '\U{2001}', '\U{2002}', '\U{2003}', '\U{2004}',
    '\U{2005}', '\U{2006}', '\U{2007}', '\U{2008}', '\U{2009}', '\U{200A}', '\U{2028}',
    '\U{2029}', '\U{202F}', '\U{205F}', '\U{3000}'
  }

  predicate IsSpace(c: char) {
    c in Whitespace
  }

  predicate AllSpace(s: string) {
    forall i :: 0 <= i < |s| ==> IsSpace(s[i])
  }

  /** A string that neither starts nor ends with whitespace. */
  predicate Trimmed(s: string) {
    s == [] || (!IsSpace(s[0]) && !IsSpace(s[|s| - 1]))
  }

  predicate IsUpper(c: char) {
    'A' <= c <= 'Z'
  }

  /** The index of the first character at or after `i` that is not
      whitespace, or `|s|` if there is none. */
  function SkipSpaces(s: string, i: nat): (j: nat)
    requires i <= |s|
    ensures i <= j <= |s|
    ensures j == |s| || !IsSpace(s[j])
    decreases |s| - i
  {
    if i < |s| && IsSpace(s[i]) then SkipSpaces(s, i + 1) else i
  }

  /** Everything skipped is whitespace. */
  lemma {:induction false} SkipSpacesSkipsSpaces(s: string, i: nat)
    requires i <= |s|
    ensures forall k :: i <= k < SkipSpaces(s, i) ==> IsSpace(s[k])
    decreases |s| - i
  {
    if i < |s| && IsSpace(s[i]) {
      SkipSpacesSkipsSpaces(s, i + 1);
    }
  }

  /** Skipping stops exactly at the first non-whitespace character. */
  lemma {:induction false} SkipSpacesTo(s: string, i: nat, p: nat)
    requires i <= p <= |s|
    requires forall k :: i <= k < p ==> IsSpace(s[k])
    requires p == |s| || !IsSpace(s[p])
    ensures SkipSpaces(s, i) == p
    decreases p - i
  {
    if i < p {
      SkipSpacesTo(s, i + 1, p);
    }
  }

  /** The end of `s[lo..j]` once its trailing whitespace is cut off. */
  function BackSpaces(s: string, lo: nat, j: nat): (e: nat)
    requires lo <= j <= |s|
    ensures lo <= e <= j
    ensures e == lo || !IsSpace(s[e - 1])
    decreases j
  {
    if lo < j && IsSpace(s[j - 1]) then BackSpaces(s, lo, j - 1) else j
  }

  /** Everything cut off is whitespace. */
  lemma {:induction false} BackSpacesSkipsSpaces(s: string, lo: nat, j: nat)
    requires lo <= j <= |s|
    ensures forall k :: BackSpaces(s, lo, j) <= k < j ==> IsSpace(s[k])
    decreases j
  {
    if lo < j && IsSpace(s[j - 1]) {
      BackSpacesSkipsSpaces(s, lo, j - 1);
    }
  }

  /** Cutting stops exactly after the last non-whitespace character. */
  lemma {:induction false} BackSpacesTo(s: string, lo: nat, j: nat, q: nat)
    requires lo <= q <= j <= |s|
    requires forall k :: q <= k < j ==> IsSpace(s[k])
    requires q == lo || !IsSpace(s[q - 1])
    ensures BackSpaces(s, lo, j) == q
    decreases j
  {
    if q < j {
      BackSpacesTo(s, lo, j - 1, q);
    }
  }

  /** `r` is what is left of `s` once whitespace has been cut from both ends,
      with the cut starting at index `i`. */
  predicate Surrounds(s: string, i: int, r: string) {
    && 0 <= i <= |s| - |r|
    && s == s[..i] + r + s[i + |r|..]
    && AllSpace(s[..i])
    && AllSpace(s[i + |r|..])
  }

  /** `str.strip()`: whitespace removed from both ends. When the text is all
      whitespace, nothing is left. */
  function Strip(s: string): (r: string)
    ensures |r| <= |s|
    ensures Trimmed(r)
  {
    var i := SkipSpaces(s, 0);
    s[i..BackSpaces(s, i, |s|)]
  }

  /** The input of `str.strip()` is some whitespace, then the result, then
      some more whitespace. */
  lemma StripSurrounds(s: string)
    ensures exists i :: Surrounds(s, i, Strip(s))
  {
    var i := SkipSpaces(s, 0);
    var j := BackSpaces(s, i, |s|);
    SkipSpacesSkipsSpaces(s, 0);
    BackSpacesSkipsSpaces(s, i, |s|);
    SplitThree(s, i, j);
    assert Surrounds(s, i, Strip(s));
  }

  lemma SplitThree(s: string, i: int, j: int)
    requires 0 <= i <= j <= |s|
    ensures s == s[..i] + s[i..j] + s[j..]
  {
  }

  /** Stripping is determined by its contract: whatever whitespace surrounds a
      trimmed core, stripping returns exactly that core. */
  lemma StripUnique(a: string, m: string, b: string)
    requires AllSpace(a) && AllSpace(b) && Trimmed(m)
    ensures Strip(a + m + b) == m
  {
    var s := a + m + b;
    assert forall k :: 0 <= k < |a| ==> s[k] == a[k];
    assert forall k :: |a| + |m| <= k < |s| ==> s[k] == b[k - |a| - |m|];
    if m == [] {
      SkipSpacesTo(s, 0, |s|);
      BackSpacesTo(s, |s|, |s|, |s|);
    } else {
      assert s[|a|] == m[0] && s[|a| + |m| - 1] == m[|m| - 1];
      SkipSpacesTo(s, 0, |a|);
      BackSpacesTo(s, |a|, |s|, |a| + |m|);
    }
    assert s[|a|..|a| + |m|] == m;
  }

  /** Stripping a text with no whitespace at either end changes nothing. */
  lemma StripTrimmed(t: string)
    requires Trimmed(t)
    ensures Strip(t) == t
  {
    assert [] + t + [] == t;
    StripUnique([], t, []);
  }

  /** Surrounding whitespace never changes the stripped text. */
  lemma {:induction false} StripIgnoresPadding(a: string, s: string, b: string)
    requires AllSpace(a) && AllSpace(b)
    ensures Strip(a + s + b) == Strip(s)
  {
    var m := Strip(s);
    StripSurrounds(s);
    var i :| Surrounds(s, i, m);
    var pre, post := s[..i], s[i + |m|..];
    assert s == pre + m + post;
    Regroup(a, pre, m, post, b);
    assert AllSpace(a + pre) && AllSpace(post + b) by {
      AllSpaceConcat(a, pre);
      AllSpaceConcat(post, b);
    }
    StripUnique(a + pre, m, post + b);
  }

  lemma Regroup(a: string, pre: string, m: string, post: string, b: string)
    ensures a + (pre + m + post) + b == (a + pre) + m + (post + b)
  {
  }

  lemma AllSpaceConcat(x: string, y: string)
    ensures AllSpace(x + y) <==> AllSpace(x) && AllSpace(y)
  {
    if AllSpace(x + y) {
      assert forall i :: 0 <= i < |x| ==> x[i] == (x + y)[i];
      assert forall i :: 0 <= i < |y| ==> y[i] == (x + y)[|x| + i];
    }
  }

  /** `str.lower()` on one character (ASCII letters only). */
  function LowerChar(c: char): (r: char)
    ensures !IsUpper(r)
    ensures IsSpace(r) <==> IsSpace(c)
    ensures !IsUpper(c) ==> r == c
    ensures IsUpper(c) ==> r as int == c as int + 32
  {
    if IsUpper(c) then (c as int + 32) as char else c
  }

  /** `str.lower()`: every character lower-cased, nothing added or removed. */
  function Lower(s: string): (r: string)
    ensures |r| == |s|
    ensures forall i :: 0 <= i < |r| ==> !IsUpper(r[i])
  {
    if |s| == 0 then [] else [LowerChar(s[0])] + Lower(s[1..])
  }

  /** Each character is lower-cased in place. */
  lemma {:induction false} LowerAt(s: string)
    ensures forall i :: 0 <= i < |s| ==> Lower(s)[i] == LowerChar(s[i])
  {
    if |s| > 0 {
      LowerAt(s[1..]);
    }
  }

  lemma {:induction false} LowerAppend(x: string, y: string)
    ensures Lower(x + y) == Lower(x) + Lower(y)
  {
    if |x| > 0 {
      assert (x + y)[1..] == x[1..] + y;
      LowerAppend(x[1..], y);
    } else {
      assert x + y == y;
    }
  }

  /** Lower-casing keeps every whitespace character in place and adds none. */
  lemma LowerKeepsSpaces(s: string)
    ensures AllSpace(s) ==> AllSpace(Lower(s))
    ensures Trimmed(s) ==> Trimmed(Lower(s))
  {
    LowerAt(s);
  }

  /** Lower-casing twice is lower-casing once. */
  lemma {:induction false} LowerIdempotent(s: string)
    ensures Lower(Lower(s)) == Lower(s)
  {
    if |s| > 0 {
      LowerIdempotent(s[1..]);
      assert Lower(s)[1..] == Lower(s[1..]);
    }
  }

  /** The key two texts are compared by: `text.strip().lower()`. */
  function Normalize(s: string): (r: string)
    ensures |r| <= |s|
    ensures Trimmed(r)
    ensures forall i :: 0 <= i < |r| ==> !IsUpper(r[i])
  {
    LowerKeepsSpaces(Strip(s));
    Lower(Strip(s))
  }

  /** Two texts count as the same answer when their normalised forms agree. */
  predicate Matches(a: string, b: string) {
    Normalize(a) == Normalize(b)
  }

  /** Lower-casing and stripping commute, since no letter is whitespace. */
  lemma {:induction false} LowerStripCommute(s: string)
    ensures Lower(Strip(s)) == Strip(Lower(s))
  {
    var m := Strip(s);
    StripSurrounds(s);
    var i :| Surrounds(s, i, m);
    var pre, post := s[..i], s[i + |m|..];
    assert Lower(s) == Lower(pre) + Lower(m) + Lower(post) by {
      assert s == pre + m + post;
      LowerAppend(pre + m, post);
      LowerAppend(pre, m);
    }
    LowerKeepsSpaces(pre);
    LowerKeepsSpaces(m);
    LowerKeepsSpaces(post);
    StripUnique(Lower(pre), Lower(m), Lower(post));
  }

  /** Normalising a normalised text changes nothing. */
  lemma {:induction false} NormalizeIdempotent(s: string)
    ensures Normalize(Normalize(s)) == Normalize(s)
  {
    var m := Strip(s);
    LowerKeepsSpaces(m);
    StripTrimmed(Lower(m));
    LowerIdempotent(m);
  }

  /** Matching ignores whitespace around either text. */
  lemma {:induction false} MatchesIgnoresPadding(a: string, s: string, b: string, t: string)
    requires AllSpace(a) && AllSpace(b)
    ensures Matches(a + s + b, t) <==> Matches(s, t)
  {
    StripIgnoresPadding(a, s, b);
  }

  /** Matching ignores letter case: texts equal after lower-casing match. */
  lemma {:induction false} MatchesIgnoresCase(s: string, t: string)
    requires Lower(s) == Lower(t)
    ensures Matches(s, t)
  {
    LowerStripCommute(s);
    LowerStripCommute(t);
  }
}

=== FILE: wrappers.dfy ===
/** Failure-compatible wrappers used to model the exceptions the evaluator raises. */
module Wrappers {

  /** An optional value, used for conversions that may fail. */
  datatype Option<+T> = None | Some(value: T)

  /** Either a computed value or the error that the computation raised. */
  datatype Result<+R, +E> = Success(value: R) | Failure(error: E) {

    predicate IsFailure() {
      Failure?
    }

    function PropagateFailure<U>(): Result<U, E>
      requires Failure?
    {
      Failure(error)
    }

    function Extract(): R
      requires Success?
    {
      value
    }
  }
}
